=== FILE: README.md ===
# Confidant client configuration, modelled in Dafny

A model of how the Ruby Confidant client (`confidant-ruby-client`) arrives
at its runtime configuration, with proofs about that model. The
configuration is resolved from three layers:

1. the command-line options, cleaned by `CLI.clean_opts`. The `pre` hook
   nests each command's own options under the command's name.
2. the profile read from the first config file that exists. The profile's
   `auth_context` block is flattened into it.
3. the client defaults (`DEFAULTS`).

The resolved configuration is then checked against `MANDATORY_CONFIG_KEYS`
for the global scope and for each command scope being checked.

Modules:

- `Values` (values.dfy): the value tree that YAML and GLI produce (nil,
  booleans, integers, strings, arrays, hashes), Ruby truthiness, and the
  errors the code raises. Ruby's `NoMethodError`/`TypeError` on a value of
  the wrong shape are modelled as `TypeFault`. A loader failure on an
  existing path is `LoadFailure`. `ConfigurationError` is the project's own
  exception.
- `Wrappers` (wrappers.dfy): `Option`, `Result` and `Outcome`, which stand in
  for Ruby's nil arguments and exceptions.
- `Strings` (strings.dfy): one-character `String#tr`, `String#split` with a
  one-character pattern, and `Array#join`. Ruby's `split` drops trailing empty
  fields and trims nothing, and the model does the same. Both directions of
  the split/join round trip are proved.
- `Configurator` (configurator.dfy, modelling configurator.rb): the constants, `profile_from_file`,
  `profile_config`, the merge done by `configure`, `validate_config` and
  `missing_keys_for_command`. It also holds a pure `ConfigureStep`, which
  returns both the stored config and the outcome. The class `Resolver`
  stands for a `Configurator` object and holds the single stored-config
  slot: `New` models `initialize`, and `Configure` and `Validate` model the
  instance methods.
- `Cli` (cli.dfy, modelling cli.rb): `clean_opts` and the `pre` hook's option building
  (lines 92-93), followed by its call to `configure`.
- `Scenarios` (scenarios.dfy): concrete runs, including:
  - worked examples;
  - the exact error messages;
  - GLI's doubled String/Symbol keys;
  - a falsy `auth_context`, which stays in the profile.

The filesystem is an oracle `Env(existing, documents)`:

- `existing` holds the paths for which `File.exist?` holds.
- `documents` holds what `YAML.load_file` returns for each readable,
  parseable path, with its keys assumed to be symbolized already.

An existing path with no document is one the loader fails on. Keys are the
names of Ruby Symbols, as strings. GLI's options hash is the sequence of its
entries in insertion order: a Hash's keys are distinct, so "later entries
overwrite earlier ones" is exactly what `each_pair` assignment does.

The model follows the code in these places:

- `config_files` pieces are not trimmed.
- Cleaning is not idempotent: its output keys are Symbols, which a second pass
  would discard.
- A `configure` that fails validation has already replaced the stored
  config.
- A loader failure propagates as the loader's own exception, not as a
  `ConfigurationError`.
- The profile-not-found message is reproduced verbatim, including its
  missing closing quote.

## Model

| member | source | states |
|---|---|---|
| `Strings.Tr` | lib/confidant/cli.rb:117 | After `tr('-', '_')` every hyphen has become an underscore, position by position, and every other character is kept. The length is unchanged and no hyphen is left |
| `Strings.TrRoundTrip` | lib/confidant/cli.rb:117 | Translating back undoes the translation when the target character did not occur in the original |
| `Strings.Join` | lib/confidant/configurator.rb:99-104 | `Array#join`, which builds both parts of the validation message: a non-empty join starts with its first part. Its partners `SplitJoin` and `SplitOfJoin` state that joining with commas undoes `split(',')` and that splitting undoes the join |
| `Strings.Split` | lib/confidant/cli.rb:120 | The pieces are the comma-separated fields with only the trailing empty ones removed. No piece contains a comma and the last piece is never empty; a string not ending in a comma keeps all of its fields |
| `Strings.SplitJoin` | lib/confidant/cli.rb:120 | Joining the pieces of a comma-separated list with commas gives back the original string, unless it ended with a comma |
| `Strings.SplitOfJoin` | lib/confidant/cli.rb:120 | Comma-free pieces whose last piece is non-empty are recovered exactly by splitting their comma join |
| `Cli.CanonicalName` | lib/confidant/cli.rb:117 | Each `-` of the GLI name becomes `_` and every other character is kept, so the key has no hyphen and the same length |
| `Cli.CanonicalNameReversible` | lib/confidant/cli.rb:117 | A name written without underscores can be read back from its key |
| `Cli.Canonicalize` | lib/confidant/cli.rb:113-117 | No canonical key contains a hyphen |
| `Cli.CanonicalizeDescribes` | lib/confidant/cli.rb:113-117 | A key is present exactly when some String key of GLI's hash maps to it, and it holds the value of the last such entry |
| `Cli.StringKeyed` | lib/confidant/cli.rb:113 | `select` keeps exactly the String-keyed entries, in order, each once: the result is never longer than the input |
| `Cli.StringKeyedConcat` | lib/confidant/cli.rb:113 | `select` keeps the entries in order: selecting from two consecutive runs of entries gives the first run's selection followed by the second's |
| `Cli.CanonicalizeIgnoresSymbolKeys` | lib/confidant/cli.rb:111-113 | Dropping every Symbol-keyed entry leaves the canonical map unchanged |
| `Cli.SplitConfigFiles` | lib/confidant/cli.rb:119-120 | A truthy String `config_files` becomes the Array of its pieces; a falsy one is untouched; a truthy non-String raises; no other key changes |
| `Cli.DropPlaceholders` | lib/confidant/cli.rb:122-127 | Exactly the entries with a truthy value and a key whose length is not 1 survive, with their values |
| `Cli.CleanCanonical` | lib/confidant/cli.rb:119-130 | The result raises only for a truthy non-String `config_files`. Kept keys are exactly those of length other than 1 with truthy values, unchanged except for the split `config_files` |
| `Cli.CleanOpts` | lib/confidant/cli.rb:110-131 | No key of the cleaned options contains a hyphen |
| `Cli.CleanOptsFromEntries` | lib/confidant/cli.rb:110-131 | Every cleaned key comes from a String key. The last GLI entry naming a key decides whether the key is kept and, except for `config_files`, its value |
| `Cli.CleanOptsIgnoresSymbolKeys` | lib/confidant/cli.rb:111-113 | The Symbol-keyed twins GLI adds never affect the cleaned options |
| `Cli.PreHookOpts` | lib/confidant/cli.rb:92-93 | The options are the cleaned global options. When command options exist, their cleaned hash is stored under the command name and nothing else changes. A cleaning error in either part raises |
| `Cli.PreHook` | lib/confidant/cli.rb:92-96 | A cleaning error raises before the stored config is touched. A successful run has every global key and satisfies the invoked command's scope. Once cleaning succeeds, the result is that of `configure` on the built options with the command name |
| `Cli.CommandOptionsShadowProfile` | lib/confidant/cli.rb:92-96 | The merge is shallow and options win. So after the `pre` hook, the stored config holds the CLI's own hash under the command name, replacing any block of that name from the profile |
| `Configurator.MandatoryScopes` | lib/confidant/configurator.rb:32-35 | The mandatory scopes are `global` then `get_service` |
| `Configurator.LookupKeys` | lib/confidant/configurator.rb:149 | A scope's keys are those of its first table entry, or `[]` when the table has none |
| `Configurator.MandatoryKeysFor` | lib/confidant/configurator.rb:149 | `get_service` needs `service`, `global` its four keys, any other command nothing |
| `Configurator.GlobalMandatoryKeys` | lib/confidant/configurator.rb:33 | The global mandatory keys are `url auth_key from to`, in that order |
| `Configurator.FlattenAuthContext` | lib/confidant/configurator.rb:138-141 | `auth_context` entries override same-named profile keys. Other profile keys are kept, and the `auth_context` key is gone |
| `Configurator.MergeAuthContext` | lib/confidant/configurator.rb:137-142 | A truthy Hash `auth_context` is flattened. A falsy one leaves the profile as it is, `auth_context` key included. A truthy non-Hash raises |
| `Configurator.ProfileFromFile` | lib/confidant/configurator.rb:126-143 | A load failure is raised exactly when the file cannot be loaded. A parsed document that is not a Hash, a profile name that is not a String, or a profile value that is not a Hash raises a type fault. A `ConfigurationError` is raised exactly when the profile is not a top-level key of the file, with the message naming profile and file. A file that holds the requested profile as a Hash loads it, and the result is that profile with its `auth_context` flattened |
| `Configurator.ProfileFromPaths` | lib/confidant/configurator.rb:111-121 | The first existing path is read and its result returned. No existing path gives `{}` without error. A non-String path before any existing one raises |
| `Configurator.ProfileConfig` | lib/confidant/configurator.rb:111-121 | An Array of paths is searched. An empty Hash iterates nothing and gives `{}`. Any other `config_files` value raises |
| `Configurator.ProfileNotFoundMessage` | lib/confidant/configurator.rb:133 | The message is `Profile '`, the profile, `' not found in '`, then the file name, with no closing quote |
| `Configurator.ProfileLayer` | lib/confidant/configurator.rb:63-66 | The profile is looked up with the options' `config_files` and `profile`, falling back to `["~/.confidant", "/etc/confidant/config"]` and `default` |
| `Configurator.OnlyFirstExistingFileIsRead` | lib/confidant/configurator.rb:113-117 | Changing the documents of every path other than the first existing one changes nothing |
| `Configurator.NoExistingFileMeansEmptyProfile` | lib/confidant/configurator.rb:111-121 | When no candidate path exists, the profile layer is `{}` and resolution cannot fail |
| `Configurator.SelfConfig` | lib/confidant/configurator.rb:59 | Profile selection uses the options' `config_files` and `profile` when given, and the `DEFAULT_OPTS` values otherwise |
| `Configurator.Resolve` | lib/confidant/configurator.rb:54-73 | Resolution fails exactly when loading the profile fails. No `DEFAULT_OPTS` key survives and every `DEFAULTS` key is present. Every other key takes its value from the highest layer defining it: opts, then profile, then `DEFAULTS` |
| `Configurator.Layering` | lib/confidant/configurator.rb:62-73 | For any three layers with some keys removed from the top two: removed keys are absent; every key of the bottom layer is present; each remaining key takes the value of the highest layer holding it |
| `Configurator.ResolveWithoutProfile` | lib/confidant/configurator.rb:63-73 | With an empty profile layer, the result is `DEFAULTS` overridden by the options minus the `DEFAULT_OPTS` keys |
| `Configurator.Without` | lib/confidant/configurator.rb:88 | `Array#-` keeps exactly the elements not present, in the receiver's order |
| `Configurator.Within` | lib/confidant/configurator.rb:93 | For a duplicate-free receiver, `Array#&` keeps exactly the elements present, in the receiver's order, without repeats |
| `Configurator.GlobalMissing` | lib/confidant/configurator.rb:88 | The missing global keys are exactly the absent ones, in declaration order |
| `Configurator.ScopesToCheck` | lib/confidant/configurator.rb:90-94 | An explicit command is the only scope. Otherwise the scopes are the mandatory scopes that are top-level keys, `global` included, in declaration order |
| `Configurator.MissingKeysForCommand` | lib/confidant/configurator.rb:148-154 | A scope without mandatory keys reports nothing. An absent or non-Hash block reports all of its keys; otherwise exactly the keys the block lacks. The keys keep their declaration order, and nothing is reported exactly when the scope is satisfied |
| `Configurator.ScopeGroups` | lib/confidant/configurator.rb:96-100 | The groups are exactly the `scope[keys]` entries of the unsatisfied checked scopes, at most one per scope; there are none exactly when every checked scope is satisfied |
| `Configurator.ScopeGroupsOfOne` | lib/confidant/configurator.rb:96-100 | One scope contributes its group when it is not satisfied and nothing when it is |
| `Configurator.ScopeGroupsConcat` | lib/confidant/configurator.rb:96-100 | The groups follow the order of the scopes: the groups for `a + b` are those for `a` followed by those for `b` |
| `Configurator.ScopeGroup` | lib/confidant/configurator.rb:99 | A group is the scope name, `[`, the missing keys joined by `,`, then `]` |
| `Configurator.MissingEntries` | lib/confidant/configurator.rb:88-100 | The missing global keys come first, in declaration order, and the scope groups, the only bracketed entries, come after them. They are exactly the groups of the checked scopes that fail, in scope order |
| `Configurator.MissingEntriesListEveryOmission` | lib/confidant/configurator.rb:88-104 | The message entries name every absent global key and every unsatisfied checked scope, and nothing else |
| `Configurator.NoMissingEntries` | lib/confidant/configurator.rb:88-102 | Nothing is reported exactly when every global key is present and every checked scope is satisfied |
| `Configurator.ValidateConfig` | lib/confidant/configurator.rb:87-105 | Validation passes if and only if every global key is present and every checked scope is satisfied. Otherwise it raises a `ConfigurationError` whose message is `Missing required config keys: ` followed by the entries joined by `, ` |
| `Configurator.ConfigureStep` | lib/confidant/configurator.rb:54-79 | A profile-loading failure leaves the stored config and raises. Otherwise the new config is stored before validation, so a validation failure still replaces it. Success returns the stored config, which lacks every `DEFAULT_OPTS` key and satisfies the global scope and the command's scope. A validation failure raises exactly the `ConfigurationError` that validation produced |
| `Configurator.Resolver.New` | lib/confidant/configurator.rb:42-44 | Construction runs `configure` with no stored config: it succeeds exactly when that does, and a constructed object holds a config with every global key, the command's scope satisfied and no `DEFAULT_OPTS` key |
| `Configurator.Resolver.Configure` | lib/confidant/configurator.rb:54-79 | The object's stored config and the result are those of one `configure` step from the config it held |
| `Configurator.Resolver.Validate` | lib/confidant/configurator.rb:87-105 | Validating the stored config passes exactly when it has every global key and every checked scope is satisfied |
| `Scenarios.GlobalOptionsAloneSucceed` | lib/confidant/configurator.rb:54-79 | With no config file, the four global options resolve and validate, with the four client defaults backfilled |
| `Scenarios.MissingFromIsNamed` | lib/confidant/configurator.rb:87-105 | Omitting `from` raises `Missing required config keys: from` |
| `Scenarios.MessageOrder` | lib/confidant/configurator.rb:96-104 | Missing `url` and `from` with command `get_service` reports `url`, `from`, then the `get_service` group, joined by `, `: the message is exactly `Missing required config keys: url, from, get_service[service]` |
| `Scenarios.GetServiceGroup` | lib/confidant/configurator.rb:99 | The `get_service` group for a missing `service` reads `get_service[service]` |
| `Scenarios.GlobalBlockIsAScope` | lib/confidant/configurator.rb:90-99 | A top-level `global` Hash is itself checked as a scope and reported as `global[auth_key,from,to]` |
| `Scenarios.CommandWithoutMandatoryKeysPasses` | lib/confidant/configurator.rb:148-150 | For every config, `show_config` has no mandatory keys and never fails its scope, so validation under it passes exactly when the global keys are present |
| `Scenarios.AuthContextFlattened` | lib/confidant/configurator.rb:137-141 | Profile `prod` with `auth_context: {auth_key: X}` and `url: Y` loads as `{auth_key: X, url: Y}` |
| `Scenarios.FalsyAuthContextKept` | lib/confidant/configurator.rb:138 | An `auth_context: false` stays in the loaded profile |
| `Scenarios.MissingProfileRaises` | lib/confidant/configurator.rb:131-134 | Requesting a profile absent from the existing file raises the error naming the profile and the file |
| `Scenarios.SplitKeepsSpaces` | lib/confidant/cli.rb:120 | `"a, b"` splits into `a` and ` b`, untrimmed |
| `Scenarios.SplitDropsTrailingEmpty` | lib/confidant/cli.rb:120 | `"a,,"` splits into just `a`, and `""` into nothing |
| `Scenarios.CleanGliOptions` | lib/confidant/cli.rb:110-131 | Cleaning GLI's hash drops the Symbol twin, the `u` alias, the false `help` and the nil `auth-key`, and splits `config_files` |

## Left out

- Path expansion (`File.expand_path`, `~`): the existence oracle is keyed by
  the path as written.
- Real file reads and YAML parsing: these are the `Env` oracle.
- `deep_symbolize_keys`: documents are assumed to already have Symbol keys.
  A top-level document that is not a Hash raises, as `deep_symbolize_keys`
  on it would.
- String-versus-Symbol option keys passed by library callers of
  `configure`: keys are Symbol names only.
- Logging: the `Loggability` setup, the `log.debug` traces and the
  `on_error` hook. These only write logs.
- The log-level line of the `pre` hook (cli.rb:90): it runs before
  `clean_opts` and calls `to_sym` on the `log-level` option, which raises
  when that option is nil. GLI always supplies a default, and the model
  starts the hook at line 92.
- GLI flag and command declarations, the command actions, JSON/YAML printing
  and the network client: these are framework wiring and I/O.
- Ruby's distinct exception classes for wrongly shaped values
  (`NoMethodError`, `TypeError`) are one `TypeFault` kind, with descriptive
  messages rather than Ruby's exact texts.
- A `Symbol` value passed as `profile` by a library caller: only String
  profile names are modelled; other values raise as `to_sym` would on them.
- `Resolver` (the `Configurator` object) state before the first `configure`: `initialize`
  always runs `configure`, so a constructed object always holds a config.
  `New` models the failing construction as an error result.
- `Cli.PreHook`: the class-level `Confidant::Configurator.configure` (cli.rb:96)
  and `Confidant::Configurator.config` (cli.rb:83) are not defined in
  configurator.rb, which has only the instance methods `configure` (line 54)
  and `config` (line 37). The model assumes they run the instance `configure`
  on one process-wide stored config, so a validation failure still replaces
  it. A class method that built a fresh object instead would keep the
  previous config after a failure.
- `Cli.CleanOpts`: its own contract states only hyphen-freedom. Its full
  behaviour is stated by `Cli.CleanCanonical` and `Cli.CleanOptsFromEntries`,
  because one contract quoting both was too costly for the solver.

=== FILE: cli.dfy ===
/**
 The option cleaning of the command-line front end (lib/confidant/cli.rb):
 `clean_opts` turns GLI's options hash into a Symbol-keyed config, and the
 `pre` hook nests the command's options under the command name before
 handing everything to `configure`.
 */
module Cli {
  import opened Wrappers
  import opened Values
  import Strings
  import Configurator

  /** A key of GLI's options hash: GLI gives every flag both a String and a Symbol key. */
  datatype RawKey = StrKey(name: string) | SymKey(name: string)

  /** GLI's options hash as its entries in insertion order (keys are distinct, as in any Hash). */
  type RawOptions = seq<(RawKey, Value)>

  /** Line 117: the key an option name becomes, `name.tr('-', '_')`. */
  function CanonicalName(name: string): (r: Key)
    ensures |r| == |name|
    ensures '-' !in r
    ensures forall i :: 0 <= i < |name| ==> r[i] == if name[i] == '-' then '_' else name[i]
  {
    Strings.Tr(name, '-', '_')
  }

  /** A name written without underscores is recovered from its canonical form. */
  lemma CanonicalNameReversible(name: string)
    requires '_' !in name
    ensures Strings.Tr(CanonicalName(name), '_', '-') == name
  {
    Strings.TrRoundTrip(name, '-', '_');
  }

  /** Entry `e` is String-keyed and its key becomes `k`. */
  predicate Names(e: (RawKey, Value), k: Key)
  {
    e.0.StrKey? && CanonicalName(e.0.name) == k
  }

  /** No entry after position `i` names `k`. */
  predicate LastNaming(raw: RawOptions, i: int, k: Key)
    requires 0 <= i < |raw|
  {
    forall j :: i < j < |raw| ==> !Names(raw[j], k)
  }

  /**
   `opts` is what lines 113-117 make of `raw`: a key is present exactly
   when some String key names it, and it holds the value of the last
   entry naming it.
   */
  ghost predicate Describes(raw: RawOptions, opts: Config)
  {
    && (forall k :: k in opts <==> exists i :: 0 <= i < |raw| && Names(raw[i], k))
    && (forall k, i :: 0 <= i < |raw| && Names(raw[i], k) && LastNaming(raw, i, k) ==> k in opts && opts[k] == raw[i].1)
  }

  /** Appending one entry to `raw` updates the described map by that entry alone. */
  lemma DescribesAppend(init: RawOptions, e: (RawKey, Value), m: Config)
    requires Describes(init, m)
    ensures Describes(init + [e], if e.0.StrKey? then m[CanonicalName(e.0.name) := e.1] else m)
  {
    var raw := init + [e];
    var r := if e.0.StrKey? then m[CanonicalName(e.0.name) := e.1] else m;
    assert forall i :: 0 <= i < |init| ==> raw[i] == init[i];
    assert raw[|init|] == e;
    forall k
      ensures k in r <==> exists i :: 0 <= i < |raw| && Names(raw[i], k)
    {
      if k in r && k !in m {
        assert Names(raw[|init|], k);
      }
      if exists i :: 0 <= i < |raw| && Names(raw[i], k) {
        var i :| 0 <= i < |raw| && Names(raw[i], k);
        if i < |init| {
          assert Names(init[i], k);
        }
      }
    }
    forall k, i | 0 <= i < |raw| && Names(raw[i], k) && LastNaming(raw, i, k)
      ensures k in r && r[k] == raw[i].1
    {
      if i < |init| {
        assert !Names(raw[|init|], k);
        assert LastNaming(init, i, k) by {
          forall j | i < j < |init| ensures !Names(init[j], k) {
            assert !Names(raw[j], k);
          }
        }
      }
    }
  }

  /** Lines 113-117: the String-keyed entries with hyphens turned into underscores, later entries overwriting earlier ones. */
  function Canonicalize(raw: RawOptions): (r: Config)
    ensures forall k :: k in r ==> '-' !in k
  {
    if |raw| == 0 then map[]
    else
      var e := raw[|raw| - 1];
      var m := Canonicalize(raw[..|raw| - 1]);
      if e.0.StrKey? then m[CanonicalName(e.0.name) := e.1] else m
  }

  /** `Canonicalize` keeps exactly the String-keyed names, each with the last value given for it. */
  lemma {:induction false} CanonicalizeDescribes(raw: RawOptions)
    ensures Describes(raw, Canonicalize(raw))
    decreases |raw|
  {
    if |raw| > 0 {
      var init := raw[..|raw| - 1];
      var e := raw[|raw| - 1];
      CanonicalizeDescribes(init);
      DescribesAppend(init, e, Canonicalize(init));
      assert init + [e] == raw;
    }
  }

  /** The String-keyed entries of `raw`, in order. */
  function StringKeyed(raw: RawOptions): (r: RawOptions)
    ensures |r| <= |raw|
    ensures forall i :: 0 <= i < |r| ==> r[i].0.StrKey? && r[i] in raw
    ensures forall e :: e in raw && e.0.StrKey? ==> e in r
  {
    if |raw| == 0 then []
    else if raw[|raw| - 1].0.StrKey? then StringKeyed(raw[..|raw| - 1]) + [raw[|raw| - 1]]
    else StringKeyed(raw[..|raw| - 1])
  }

  /** `select` keeps the entries in order: it distributes over concatenation. */
  lemma {:induction false} StringKeyedConcat(a: RawOptions, b: RawOptions)
    ensures StringKeyed(a + b) == StringKeyed(a) + StringKeyed(b)
    decreases |b|
  {
    if |b| > 0 {
      var b' := b[..|b| - 1];
      assert (a + b)[..|a + b| - 1] == a + b';
      assert (a + b)[|a + b| - 1] == b[|b| - 1];
      StringKeyedConcat(a, b');
    } else {
      assert a + b == a;
    }
  }

  /**
   Line 113: only String-keyed entries matter; the Symbol-keyed twins GLI
   adds are ignored.
   */
  lemma {:induction false} CanonicalizeIgnoresSymbolKeys(raw: RawOptions)
    ensures Canonicalize(StringKeyed(raw)) == Canonicalize(raw)
    decreases |raw|
  {
    if |raw| > 0 {
      var init := raw[..|raw| - 1];
      CanonicalizeIgnoresSymbolKeys(init);
      if raw[|raw| - 1].0.StrKey? {
        var s := StringKeyed(init) + [raw[|raw| - 1]];
        assert s[..|s| - 1] == StringKeyed(init);
      }
    }
  }

  /** Line 120: a truthy `config_files` is split on commas; a truthy non-String has no `split`. */
  function SplitConfigFiles(opts: Config): (r: Result<Config, Error>)
    ensures r.Success? <==>
      (!(Configurator.ConfigFilesKey in opts && Truthy(opts[Configurator.ConfigFilesKey])) ||
       opts[Configurator.ConfigFilesKey].Str?)
    ensures r.Success? ==> r.value.Keys == opts.Keys
    ensures r.Success? ==> forall k :: k in opts && k != Configurator.ConfigFilesKey ==> r.value[k] == opts[k]
    ensures r.Success? && Configurator.ConfigFilesKey in opts ==>
      var c := opts[Configurator.ConfigFilesKey];
      if Truthy(c)
      then c.Str? && r.value[Configurator.ConfigFilesKey] == List(StrList(Strings.Split(c.s, ',')))
      else r.value[Configurator.ConfigFilesKey] == c
  {
    var key := Configurator.ConfigFilesKey;
    if key in opts && Truthy(opts[key]) then
      match opts[key]
      case Str(s) => Success(opts[key := List(StrList(Strings.Split(s, ',')))])
      case _ => Failure(TypeFault("undefined method `split'"))
    else
      Success(opts)
  }

  /** Line 127: drop nil and false values and single-character keys. */
  function DropPlaceholders(opts: Config): (r: Config)
    ensures forall k :: k in r <==> k in opts && Truthy(opts[k]) && |k| != 1
    ensures forall k :: k in r ==> r[k] == opts[k]
  {
    map k | k in opts && Truthy(opts[k]) && |k| != 1 :: opts[k]
  }

  /**
   Lines 120-127 applied to the canonical map `c`. A key is kept exactly
   when it has length other than 1 and a truthy value; the kept value is
   unchanged, except that `config_files` becomes the Array of its
   comma-separated, untrimmed pieces.
   */
  function CleanCanonical(c: Config): (r: Result<Config, Error>)
    ensures r.Failure? <==>
      (Configurator.ConfigFilesKey in c && Truthy(c[Configurator.ConfigFilesKey]) && !c[Configurator.ConfigFilesKey].Str?)
    ensures r.Success? ==> forall k :: k in r.value ==> |k| != 1 && Truthy(r.value[k])
    ensures r.Success? ==> forall k :: k in r.value <==> k in c && |k| != 1 && Truthy(c[k])
    ensures r.Success? ==> forall k :: k in r.value && k != Configurator.ConfigFilesKey ==> r.value[k] == c[k]
    ensures r.Success? && Configurator.ConfigFilesKey in r.value ==>
      && c[Configurator.ConfigFilesKey].Str?
      && r.value[Configurator.ConfigFilesKey] == List(StrList(Strings.Split(c[Configurator.ConfigFilesKey].s, ',')))
  {
    match SplitConfigFiles(c)
    case Failure(e) => Failure(e)
    case Success(split) =>
      SplitKeepsTruthiness(c);
      Success(DropPlaceholders(split))
  }

  /** Splitting changes no value's truthiness: a split `config_files` is an Array. */
  lemma SplitKeepsTruthiness(c: Config)
    requires SplitConfigFiles(c).Success?
    ensures forall k :: k in c ==> (Truthy(SplitConfigFiles(c).value[k]) <==> Truthy(c[k]))
  {
    var split := SplitConfigFiles(c).value;
    forall k | k in c ensures Truthy(split[k]) <==> Truthy(c[k]) {
      if k == Configurator.ConfigFilesKey && Truthy(c[k]) {
        assert split[k].List?;
      }
    }
  }

  /** `clean_opts`: canonical names (lines 113-117), then lines 120-127. */
  function CleanOpts(raw: RawOptions): (r: Result<Config, Error>)
    ensures r.Success? ==> forall k :: k in r.value ==> '-' !in k
  {
    CleanCanonical(Canonicalize(raw))
  }

  /**
   `clean_opts` in terms of GLI's entries: every output key is the
   canonical name of some String key; the last entry naming a key decides
   whether it is kept (length other than 1, truthy value) and, except for
   `config_files`, what it holds.
   */
  lemma CleanOptsFromEntries(raw: RawOptions)
    ensures CleanOpts(raw).Success? ==> forall k :: k in CleanOpts(raw).value ==>
      exists i :: 0 <= i < |raw| && Names(raw[i], k)
    ensures CleanOpts(raw).Success? ==> forall k, i :: 0 <= i < |raw| && Names(raw[i], k) && LastNaming(raw, i, k) ==>
      && (k in CleanOpts(raw).value <==> |k| != 1 && Truthy(raw[i].1))
      && (k in CleanOpts(raw).value && k != Configurator.ConfigFilesKey ==> CleanOpts(raw).value[k] == raw[i].1)
  {
    CanonicalizeDescribes(raw);
  }

  /** Line 113 for the whole of `clean_opts`: removing the Symbol-keyed entries changes nothing. */
  lemma CleanOptsIgnoresSymbolKeys(raw: RawOptions)
    ensures CleanOpts(StringKeyed(raw)) == CleanOpts(raw)
  {
    CanonicalizeIgnoresSymbolKeys(raw);
  }

  /**
   Lines 92-93 of the `pre` hook: the cleaned global options, plus the
   cleaned command options under the command name when GLI passes any.
   */
  function PreHookOpts(global: RawOptions, commandName: Key, options: Option<RawOptions>): (r: Result<Config, Error>)
    ensures r.Success? <==> CleanOpts(global).Success? && (options.Some? ==> CleanOpts(options.value).Success?)
    ensures r.Success? && options.None? ==> r.value == CleanOpts(global).value
    ensures r.Success? && options.Some? ==>
      && commandName in r.value
      && r.value[commandName] == Dict(CleanOpts(options.value).value)
      && forall k :: k != commandName ==>
           (k in r.value <==> k in CleanOpts(global).value) &&
           (k in r.value ==> r.value[k] == CleanOpts(global).value[k])
  {
    var opts :- CleanOpts(global);
    match options
    case None => Success(opts)
    case Some(o) =>
      var commandOpts :- CleanOpts(o);
      Success(opts[commandName := Dict(commandOpts)])
  }

  /**
   The whole `pre` hook (lines 92-96): build the options, then run
   `configure` with the command name. Cleaning failures raise before the
   stored config is touched.
   */
  function PreHook(global: RawOptions, commandName: Key, options: Option<RawOptions>,
                   env: Configurator.Env, stored: Option<Config>): (r: Configurator.Step)
    ensures PreHookOpts(global, commandName, options).Failure? ==>
      r.stored == stored && r.outcome == Failure(PreHookOpts(global, commandName, options).error)
    ensures r.outcome.Success? ==> Configurator.ScopeSatisfied(r.outcome.value, commandName)
    ensures r.outcome.Success? ==>
      forall k :: k in Configurator.GlobalMandatoryKeys() ==> k in r.outcome.value
    ensures PreHookOpts(global, commandName, options).Success? ==>
      r == Configurator.ConfigureStep(stored, PreHookOpts(global, commandName, options).value, Some(commandName), env)
  {
    match PreHookOpts(global, commandName, options)
    case Failure(e) => Configurator.Step(stored, Failure(e))
    case Success(opts) => Configurator.ConfigureStep(stored, opts, Some(commandName), env)
  }

  /**
   The merge is shallow and the options win, so under the `pre` hook the
   command's own (possibly empty) options hash replaces any same-named
   block of the profile: a successful run holds exactly the CLI's hash
   under the command name.
   */
  lemma CommandOptionsShadowProfile(global: RawOptions, commandName: Key, options: RawOptions,
                                    env: Configurator.Env, stored: Option<Config>)
    requires commandName !in Configurator.DefaultOpts
    requires PreHookOpts(global, commandName, Some(options)).Success?
    requires Configurator.Resolve(PreHookOpts(global, commandName, Some(options)).value, env).Success?
    ensures var r := PreHook(global, commandName, Some(options), env, stored);
      r.stored.Some? && commandName in r.stored.value &&
      r.stored.value[commandName] == Dict(CleanOpts(options).value)
  {
  }
}

=== FILE: configurator.dfy ===
/**
 Configuration resolution and validation for the Confidant client
 (lib/confidant/configurator.rb): defaults, the profile read from the
 first existing config file, the fixed-order shallow merge, and the
 per-scope mandatory-key check.
 */
module Configurator {
  import opened Wrappers
  import opened Values
  import Strings

  const ConfigFilesKey: Key := "config_files"
  const ProfileKey: Key := "profile"
  const LogLevelKey: Key := "log_level"
  const AuthContextKey: Key := "auth_context"
  const GlobalScope: Key := "global"

  /** `DEFAULT_OPTS`: controls for resolution itself, never part of the final config. */
  const DefaultOpts: Config := map[
    ConfigFilesKey := List([Str("~/.confidant"), Str("/etc/confidant/config")]),
    ProfileKey := Str("default"),
    LogLevelKey := Str("info")
  ]

  /** `DEFAULTS`: the client's backfill values, the lowest layer of the final config. */
  const Defaults: Config := map[
    "token_lifetime" := Int(10),
    "token_version" := Int(2),
    "user_type" := Str("service"),
    "region" := Str("us-east-1")
  ]

  /** `MANDATORY_CONFIG_KEYS`, scopes and keys in declaration order. */
  const MandatoryConfigKeys: seq<(Key, seq<Key>)> := [
    (GlobalScope, ["url", "auth_key", "from", "to"]),
    ("get_service", ["service"])
  ]

  /** `MANDATORY_CONFIG_KEYS.keys`. */
  function MandatoryScopes(): (r: seq<Key>)
    ensures r == [GlobalScope, "get_service"]
  {
    seq(|MandatoryConfigKeys|, i requires 0 <= i < |MandatoryConfigKeys| => MandatoryConfigKeys[i].0)
  }

  /** The keys a table lists for `scope`, or `[]` when it lists none. */
  function LookupKeys(table: seq<(Key, seq<Key>)>, scope: Key): (r: seq<Key>)
    ensures (forall i :: 0 <= i < |table| ==> table[i].0 != scope) ==> r == []
    ensures forall i :: (0 <= i < |table| && table[i].0 == scope &&
      (forall j :: 0 <= j < i ==> table[j].0 != scope)) ==> r == table[i].1
  {
    if |table| == 0 then []
    else if table[0].0 == scope then table[0].1
    else LookupKeys(table[1..], scope)
  }

  /** `MANDATORY_CONFIG_KEYS[command] || []`. */
  function MandatoryKeysFor(scope: Key): (r: seq<Key>)
    ensures scope == GlobalScope ==> r == MandatoryConfigKeys[0].1
    ensures scope == "get_service" ==> r == ["service"]
    ensures scope !in MandatoryScopes() ==> r == []
  {
    assert MandatoryConfigKeys[0].0 != "get_service" && MandatoryConfigKeys[1].1 == ["service"];
    LookupKeys(MandatoryConfigKeys, scope)
  }

  /** The global mandatory keys, `url auth_key from to`. */
  function GlobalMandatoryKeys(): (r: seq<Key>)
    ensures r == ["url", "auth_key", "from", "to"]
  {
    MandatoryKeysFor(GlobalScope)
  }

  // ---------------------------------------------------------------------
  // Profile loading
  // ---------------------------------------------------------------------

  /**
   What resolution can observe of the filesystem: which paths `File.exist?`
   accepts, and what `YAML.load_file(...).deep_symbolize_keys` returns for
   each path it can read and parse. An existing path without a document
   is one the loader fails on.
   */
  datatype Env = Env(existing: set<string>, documents: map<string, Value>)

  /** The message raised for a profile missing from its file, verbatim (the closing quote is absent in the source too). */
  function ProfileNotFoundMessage(profile: string, file: string): (r: string)
    ensures |r| == |profile| + |file| + 25
    ensures r[..9] == "Profile '" && r[9..9 + |profile|] == profile
    ensures r[9 + |profile|..|r| - |file|] == "' not found in '"
    ensures r[|r| - |file|..] == file
  {
    "Profile '" + profile + "' not found in '" + file
  }

  /**
   Lines 138-141 of configurator.rb with a Hash `auth_context`: its entries
   override the profile's, then the `auth_context` key is removed.
   */
  function FlattenAuthContext(profile: Config, authContext: Config): (r: Config)
    ensures AuthContextKey !in r
    ensures forall k :: k in r <==> k != AuthContextKey && (k in profile || k in authContext)
    ensures forall k :: k in authContext && k != AuthContextKey ==> r[k] == authContext[k]
    ensures forall k :: k in profile && k !in authContext && k != AuthContextKey ==> r[k] == profile[k]
  {
    (profile + authContext) - {AuthContextKey}
  }

  /** The `auth_context` step of `profile_from_file`, applied to the profile's hash. */
  function MergeAuthContext(profile: Config): (r: Result<Config, Error>)
    ensures !(AuthContextKey in profile && Truthy(profile[AuthContextKey])) ==> r == Success(profile)
    ensures AuthContextKey in profile && Truthy(profile[AuthContextKey]) ==>
      if profile[AuthContextKey].Dict?
      then r == Success(FlattenAuthContext(profile, profile[AuthContextKey].entries))
      else r.Failure? && r.error.TypeFault?
  {
    if AuthContextKey in profile && Truthy(profile[AuthContextKey]) then
      match profile[AuthContextKey]
      case Dict(ac) => Success(FlattenAuthContext(profile, ac))
      case _ => Failure(TypeFault("no implicit conversion into Hash"))
    else
      Success(profile)
  }

  /**
   `profile_from_file`: load `file`, look the profile up at its top level
   and flatten the profile's `auth_context`.
   */
  function ProfileFromFile(env: Env, file: string, profile: Value): (r: Result<Config, Error>)
    ensures file !in env.documents ==> r == Failure(LoadFailure(file))
    ensures r.Failure? && r.error.LoadFailure? ==> file !in env.documents
    ensures file in env.documents && (!env.documents[file].Dict? || !profile.Str?) ==>
      r.Failure? && r.error.TypeFault?
    ensures
      && file in env.documents && env.documents[file].Dict?
      && profile.Str? && profile.s in env.documents[file].entries
      && !env.documents[file].entries[profile.s].Dict?
      ==> r.Failure? && r.error.TypeFault?
    ensures r.Success? ==>
      && file in env.documents && env.documents[file].Dict?
      && profile.Str? && profile.s in env.documents[file].entries
      && env.documents[file].entries[profile.s].Dict?
    ensures (r.Failure? && r.error.ConfigurationError?) <==>
      && file in env.documents && env.documents[file].Dict? && profile.Str?
      && profile.s !in env.documents[file].entries
    ensures r.Failure? && r.error.ConfigurationError? ==>
      r.error.message == ProfileNotFoundMessage(profile.s, file)
    ensures r.Success? ==>
      r == MergeAuthContext(env.documents[file].entries[profile.s].entries)
    ensures
      && file in env.documents && env.documents[file].Dict?
      && profile.Str? && profile.s in env.documents[file].entries
      && env.documents[file].entries[profile.s].Dict?
      ==> r == MergeAuthContext(env.documents[file].entries[profile.s].entries)
  {
    if file !in env.documents then
      Failure(LoadFailure(file))
    else if !env.documents[file].Dict? then
      Failure(TypeFault("undefined method `deep_symbolize_keys'"))
    else if !profile.Str? then
      Failure(TypeFault("undefined method `to_sym'"))
    else
      var content := env.documents[file].entries;
      if profile.s !in content then
        Failure(ConfigurationError(ProfileNotFoundMessage(profile.s, file)))
      else if !content[profile.s].Dict? then
        Failure(TypeFault("undefined method `[]' for the profile"))
      else
        MergeAuthContext(content[profile.s].entries)
  }

  /** Path `i` of `paths` is a string naming an existing file. */
  predicate ExistingAt(env: Env, paths: seq<Value>, i: int)
    requires 0 <= i < |paths|
  {
    paths[i].Str? && paths[i].s in env.existing
  }

  /** Path `i` is a string naming a file that does not exist. */
  predicate SkippedAt(env: Env, paths: seq<Value>, i: int)
    requires 0 <= i < |paths|
  {
    paths[i].Str? && paths[i].s !in env.existing
  }

  /** Path `i` is the first existing one: every earlier path is a string naming a missing file. */
  predicate FirstExistingAt(env: Env, paths: seq<Value>, i: int)
    requires 0 <= i < |paths|
  {
    ExistingAt(env, paths, i) && forall j :: 0 <= j < i ==> SkippedAt(env, paths, j)
  }

  /** Dropping a skipped first path shifts every position by one. */
  lemma ShiftPaths(env: Env, paths: seq<Value>)
    requires |paths| > 0 && SkippedAt(env, paths, 0)
    ensures forall i :: 0 <= i < |paths| - 1 ==> (SkippedAt(env, paths[1..], i) <==> SkippedAt(env, paths, i + 1))
    ensures forall i :: 1 <= i < |paths| ==> (FirstExistingAt(env, paths, i) <==> FirstExistingAt(env, paths[1..], i - 1))
  {
    forall i | 1 <= i < |paths|
      ensures FirstExistingAt(env, paths, i) <==> FirstExistingAt(env, paths[1..], i - 1)
    {
      assert paths[i] == paths[1..][i - 1];
      if FirstExistingAt(env, paths[1..], i - 1) {
        forall j | 0 <= j < i
          ensures SkippedAt(env, paths, j)
        {
          if j > 0 {
            assert paths[j] == paths[1..][j - 1];
            assert SkippedAt(env, paths[1..], j - 1);
          }
        }
      }
      if FirstExistingAt(env, paths, i) {
        forall j | 0 <= j < i - 1
          ensures SkippedAt(env, paths[1..], j)
        {
          assert paths[j + 1] == paths[1..][j];
          assert SkippedAt(env, paths, j + 1);
        }
      }
    }
  }

  /**
   The loop of `profile_config` over an array of candidate paths: the
   first existing path is read and nothing after it; no existing path
   gives the empty profile.
   */
  function ProfileFromPaths(env: Env, paths: seq<Value>, profile: Value): (r: Result<Config, Error>)
    ensures (forall i :: 0 <= i < |paths| ==> SkippedAt(env, paths, i)) ==> r == Success(map[])
    ensures forall i :: 0 <= i < |paths| && FirstExistingAt(env, paths, i) ==>
      r == ProfileFromFile(env, paths[i].s, profile)
    ensures forall i :: (0 <= i < |paths| && !paths[i].Str? &&
      (forall j :: 0 <= j < i ==> SkippedAt(env, paths, j))) ==> r.Failure? && r.error.TypeFault?
    decreases |paths|
  {
    if |paths| == 0 then
      Success(map[])
    else if !paths[0].Str? then
      assert !SkippedAt(env, paths, 0);
      Failure(TypeFault("no implicit conversion into String"))
    else if paths[0].s in env.existing then
      assert !SkippedAt(env, paths, 0);
      ProfileFromFile(env, paths[0].s, profile)
    else
      var r := ProfileFromPaths(env, paths[1..], profile);
      ShiftPaths(env, paths);
      r
  }

  /**
   `profile_config`: iterate `config_files`. An Array is walked path by
   path; an empty Hash iterates nothing; a non-empty Hash yields pairs that
   are not paths; any other value has no `each`.
   */
  function ProfileConfig(env: Env, configFiles: Value, profile: Value): (r: Result<Config, Error>)
    ensures configFiles.List? ==> r == ProfileFromPaths(env, configFiles.items, profile)
    ensures configFiles == Dict(map[]) ==> r == Success(map[])
    ensures !configFiles.List? && configFiles != Dict(map[]) ==> r.Failure? && r.error.TypeFault?
  {
    match configFiles
    case List(paths) => ProfileFromPaths(env, paths, profile)
    case Dict(m) =>
      if m == map[] then Success(map[])
      else Failure(TypeFault("no implicit conversion of Array into String"))
    case _ => Failure(TypeFault("undefined method `each'"))
  }

  // ---------------------------------------------------------------------
  // Resolution
  // ---------------------------------------------------------------------

  /** Line 59: the self-configuration context, `DEFAULT_OPTS` overridden by `opts`. */
  function SelfConfig(opts: Config): (r: Config)
    ensures forall k :: k in r <==> k in DefaultOpts || k in opts
    ensures forall k :: k in opts ==> r[k] == opts[k]
    ensures forall k :: k in DefaultOpts && k !in opts ==> r[k] == DefaultOpts[k]
    ensures ConfigFilesKey in r && ProfileKey in r
  {
    DefaultOpts + opts
  }

  /** Lines 63-66: the profile layer, chosen by the context's `config_files` and `profile`. */
  function ProfileLayer(opts: Config, env: Env): (r: Result<Config, Error>)
    ensures r == ProfileConfig(env,
      if ConfigFilesKey in opts then opts[ConfigFilesKey] else DefaultOpts[ConfigFilesKey],
      if ProfileKey in opts then opts[ProfileKey] else Str("default"))
  {
    var context := SelfConfig(opts);
    ProfileConfig(env, context[ConfigFilesKey], context[ProfileKey])
  }

  /**
   Lines 59-73: `DEFAULTS` overridden by (profile overridden by the
   context), with the `DEFAULT_OPTS` keys removed. For every other key the
   value comes from the highest layer defining it: opts, then the profile,
   then `DEFAULTS`.
   */
  function Resolve(opts: Config, env: Env): (r: Result<Config, Error>)
    ensures r.Failure? <==> ProfileLayer(opts, env).Failure?
    ensures r.Failure? ==> r.error == ProfileLayer(opts, env).error
    ensures r.Success? ==> forall k :: k in DefaultOpts ==> k !in r.value
    ensures r.Success? ==> forall k :: k in Defaults ==> k in r.value
    ensures r.Success? ==> forall k :: k !in DefaultOpts ==>
      (k in r.value <==> k in opts || k in ProfileLayer(opts, env).value || k in Defaults)
    ensures r.Success? ==> forall k :: k in opts && k !in DefaultOpts ==> r.value[k] == opts[k]
    ensures r.Success? ==> forall k ::
      k !in opts && k in ProfileLayer(opts, env).value && k !in DefaultOpts ==>
      r.value[k] == ProfileLayer(opts, env).value[k]
    ensures r.Success? ==> forall k ::
      k !in opts && k !in ProfileLayer(opts, env).value && k in Defaults ==>
      r.value[k] == Defaults[k]
  {
    var context := SelfConfig(opts);
    var profile :- ProfileLayer(opts, env);
    var merged := profile + context;
    var stripped := merged - DefaultOpts.Keys;
    DefaultsKeepNoOption();
    Layering(Defaults, DefaultOpts.Keys, profile, context);
    Success(Defaults + stripped)
  }

  /** No client default shares a key with `DEFAULT_OPTS`. */
  lemma DefaultsKeepNoOption()
    ensures Defaults.Keys !! DefaultOpts.Keys
  {
    assert DefaultOpts.Keys == {ConfigFilesKey, ProfileKey, LogLevelKey};
  }

  /** Three-layer merge with some keys removed from the top two layers, for any layers. */
  lemma Layering(base: Config, removed: set<Key>, lower: Config, upper: Config)
    requires base.Keys !! removed
    ensures var r := base + ((lower + upper) - removed);
      && (forall k :: k in removed ==> k !in r)
      && (forall k :: k in base ==> k in r)
      && (forall k :: k !in removed ==> (k in r <==> k in upper || k in lower || k in base))
      && (forall k :: k in upper && k !in removed ==> r[k] == upper[k])
      && (forall k :: k !in upper && k in lower && k !in removed ==> r[k] == lower[k])
      && (forall k :: k !in upper && k !in lower && k in base ==> r[k] == base[k])
  {
  }

  /**
   Only the first existing candidate is read: replacing the documents of
   every other path leaves the profile layer unchanged.
   */
  lemma OnlyFirstExistingFileIsRead(env: Env, documents: map<string, Value>, paths: seq<Value>, profile: Value, i: nat)
    requires i < |paths| && FirstExistingAt(env, paths, i)
    requires paths[i].s in env.documents <==> paths[i].s in documents
    requires paths[i].s in documents ==> documents[paths[i].s] == env.documents[paths[i].s]
    ensures ProfileFromPaths(env.(documents := documents), paths, profile) == ProfileFromPaths(env, paths, profile)
  {
    var env' := env.(documents := documents);
    assert FirstExistingAt(env', paths, i) by {
      assert forall j :: 0 <= j < i ==> SkippedAt(env, paths, j) ==> SkippedAt(env', paths, j);
    }
  }

  /**
   With no existing candidate path the profile layer is empty and nothing
   is raised, whatever the profile name.
   */
  lemma NoExistingFileMeansEmptyProfile(opts: Config, env: Env)
    requires SelfConfig(opts)[ConfigFilesKey].List?
    requires var paths := SelfConfig(opts)[ConfigFilesKey].items;
      forall i :: 0 <= i < |paths| ==> paths[i].Str? && paths[i].s !in env.existing
    ensures ProfileLayer(opts, env) == Success(map[])
    ensures Resolve(opts, env).Success?
  {
    var paths := SelfConfig(opts)[ConfigFilesKey].items;
    assert forall i :: 0 <= i < |paths| ==> SkippedAt(env, paths, i);
  }

  /** Without a profile layer, the final config is `DEFAULTS` overridden by the options minus the `DEFAULT_OPTS` keys. */
  lemma ResolveWithoutProfile(opts: Config, env: Env)
    requires ProfileLayer(opts, env) == Success(map[])
    ensures Resolve(opts, env) == Success(Defaults + (opts - DefaultOpts.Keys))
    ensures opts.Keys !! DefaultOpts.Keys ==> Resolve(opts, env) == Success(Defaults + opts)
  {
    var context := SelfConfig(opts);
    assert (map[] + context) - DefaultOpts.Keys == opts - DefaultOpts.Keys;
    if opts.Keys !! DefaultOpts.Keys {
      assert opts - DefaultOpts.Keys == opts;
    }
  }

  // ---------------------------------------------------------------------
  // Validation
  // ---------------------------------------------------------------------

  /** `b` contains the elements of `a` in the same relative order. */
  predicate IsSubsequence(a: seq<Key>, b: seq<Key>)
    decreases |b|
  {
    |a| == 0 || (|b| > 0 && if a[0] == b[0] then IsSubsequence(a[1..], b[1..]) else IsSubsequence(a, b[1..]))
  }

  lemma {:induction false} SubsequenceOfItself(xs: seq<Key>)
    ensures IsSubsequence(xs, xs)
    decreases |xs|
  {
    if |xs| > 0 {
      SubsequenceOfItself(xs[1..]);
    }
  }

  /** `xs - present.to_a`: Ruby's `Array#-`, which keeps the receiver's order. */
  function Without(xs: seq<Key>, present: set<Key>): (r: seq<Key>)
    ensures forall k :: k in r <==> k in xs && k !in present
    ensures IsSubsequence(r, xs)
    decreases |xs|
  {
    if |xs| == 0 then []
    else if xs[0] in present then Without(xs[1..], present)
    else [xs[0]] + Without(xs[1..], present)
  }

  /** No element of `xs` appears twice. */
  predicate Distinct(xs: seq<Key>)
  {
    forall i, j :: 0 <= i < j < |xs| ==> xs[i] != xs[j]
  }

  /**
   `xs & present.to_a`: Ruby's `Array#&`, which keeps the receiver's order.
   Ruby also drops repeated elements, so the model is stated for a
   duplicate-free receiver, as `MANDATORY_CONFIG_KEYS.keys` is.
   */
  function Within(xs: seq<Key>, present: set<Key>): (r: seq<Key>)
    requires Distinct(xs)
    ensures Distinct(r)
    ensures forall k :: k in r <==> k in xs && k in present
    ensures IsSubsequence(r, xs)
    decreases |xs|
  {
    if |xs| == 0 then []
    else if xs[0] in present then [xs[0]] + Within(xs[1..], present)
    else Within(xs[1..], present)
  }

  /** `config[scope]` is a Hash holding every mandatory key of `scope`. */
  predicate ScopeSatisfied(config: Config, scope: Key)
  {
    forall k :: k in MandatoryKeysFor(scope) ==>
      scope in config && config[scope].Dict? && k in config[scope].entries
  }

  /** Line 88: the global mandatory keys absent from the config, in declaration order. */
  function GlobalMissing(config: Config): (r: seq<Key>)
    ensures forall k :: k in r <==> k in GlobalMandatoryKeys() && k !in config
    ensures IsSubsequence(r, GlobalMandatoryKeys())
  {
    Without(GlobalMandatoryKeys(), config.Keys)
  }

  /**
   Lines 90-94: the scopes to check. An explicit command is the only scope;
   otherwise every mandatory scope that is also a top-level key, in
   declaration order (including `global`).
   */
  function ScopesToCheck(config: Config, command: Option<Key>): (r: seq<Key>)
    ensures command.Some? ==> r == [command.value]
    ensures command.None? ==> forall s :: s in r <==> s in MandatoryScopes() && s in config
    ensures command.None? ==> IsSubsequence(r, MandatoryScopes())
  {
    match command
    case Some(c) => [c]
    case None =>
      assert Distinct(MandatoryScopes());
      Within(MandatoryScopes(), config.Keys)
  }

  /**
   `missing_keys_for_command`: a scope without mandatory keys reports
   nothing; a scope whose entry is absent or not a Hash reports all its
   keys; otherwise the mandatory keys its Hash lacks.
   */
  function MissingKeysForCommand(config: Config, scope: Key): (r: seq<Key>)
    ensures MandatoryKeysFor(scope) == [] ==> r == []
    ensures !(scope in config && config[scope].Dict?) ==> r == MandatoryKeysFor(scope)
    ensures forall k :: k in r <==>
      k in MandatoryKeysFor(scope) && !(scope in config && config[scope].Dict? && k in config[scope].entries)
    ensures r == [] <==> ScopeSatisfied(config, scope)
    ensures IsSubsequence(r, MandatoryKeysFor(scope))
  {
    var mandatory := MandatoryKeysFor(scope);
    if mandatory == [] then []
    else if !(scope in config && config[scope].Dict?) then
      assert mandatory[0] in mandatory;
      SubsequenceOfItself(mandatory);
      mandatory
    else Without(mandatory, config[scope].entries.Keys)
  }

  /** Line 99: one failing scope as `scope[key1,key2]`. */
  function ScopeGroup(scope: Key, missing: seq<Key>): (r: string)
    ensures |r| == |scope| + |Strings.Join(missing, ",")| + 2
    ensures r[..|scope|] == scope && r[|scope|] == '[' && r[|r| - 1] == ']'
    ensures r[|scope| + 1..|r| - 1] == Strings.Join(missing, ",")
  {
    scope + "[" + Strings.Join(missing, ",") + "]"
  }

  /** Lines 96-100: one group per scope that reports missing keys, in the order the scopes are checked. */
  function ScopeGroups(config: Config, scopes: seq<Key>): (r: seq<string>)
    ensures |r| <= |scopes|
    ensures r == [] <==> forall s :: s in scopes ==> ScopeSatisfied(config, s)
    ensures forall e :: e in r <==>
      (exists s :: s in scopes && !ScopeSatisfied(config, s) && e == ScopeGroup(s, MissingKeysForCommand(config, s)))
    decreases |scopes|
  {
    if |scopes| == 0 then []
    else
      var missing := MissingKeysForCommand(config, scopes[0]);
      var rest := ScopeGroups(config, scopes[1..]);
      assert forall s :: s in scopes <==> s == scopes[0] || s in scopes[1..];
      if missing == [] then rest else [ScopeGroup(scopes[0], missing)] + rest
  }

  /** The group a single scope contributes: none when it is satisfied. */
  lemma ScopeGroupsOfOne(config: Config, scope: Key)
    ensures ScopeGroups(config, [scope]) ==
      if ScopeSatisfied(config, scope) then [] else [ScopeGroup(scope, MissingKeysForCommand(config, scope))]
  {
    assert [scope][1..] == [];
  }

  /**
   The groups follow the order of the scopes: the groups of `a + b` are
   those of `a` followed by those of `b`.
   */
  lemma {:induction false} ScopeGroupsConcat(config: Config, a: seq<Key>, b: seq<Key>)
    ensures ScopeGroups(config, a + b) == ScopeGroups(config, a) + ScopeGroups(config, b)
    decreases |a|
  {
    if |a| == 0 {
      assert a + b == b;
    } else {
      var head := ScopeGroups(config, [a[0]]);
      assert (a + b)[0] == a[0] && (a + b)[1..] == a[1..] + b;
      ScopeGroupsCons(config, a + b);
      ScopeGroupsCons(config, a);
      ScopeGroupsConcat(config, a[1..], b);
      Regrouped(head, ScopeGroups(config, a[1..]), ScopeGroups(config, b));
      calc {
        ScopeGroups(config, a + b);
        head + ScopeGroups(config, a[1..] + b);
        head + (ScopeGroups(config, a[1..]) + ScopeGroups(config, b));
        (head + ScopeGroups(config, a[1..])) + ScopeGroups(config, b);
        ScopeGroups(config, a) + ScopeGroups(config, b);
      }
    }
  }

  /** Concatenation is associative; stated once so proofs can regroup cheaply. */
  lemma Regrouped<T>(x: seq<T>, y: seq<T>, z: seq<T>)
    ensures x + (y + z) == (x + y) + z
  {
  }

  /** The first scope's group comes before the groups of the others. */
  lemma ScopeGroupsCons(config: Config, scopes: seq<Key>)
    requires |scopes| > 0
    ensures ScopeGroups(config, scopes) == ScopeGroups(config, [scopes[0]]) + ScopeGroups(config, scopes[1..])
  {
    ScopeGroupsOfOne(config, scopes[0]);
  }

  /**
   Every entry of the error message: missing global keys first, in
   declaration order, then the failing scopes' groups, which are the only
   bracketed entries.
   */
  function MissingEntries(config: Config, command: Option<Key>): (r: seq<string>)
    ensures |GlobalMissing(config)| <= |r|
    ensures IsSubsequence(r[..|GlobalMissing(config)|], GlobalMandatoryKeys())
    ensures forall i :: 0 <= i < |r| ==> ('[' in r[i] <==> i >= |GlobalMissing(config)|)
    ensures r[|GlobalMissing(config)|..] == ScopeGroups(config, ScopesToCheck(config, command))
  {
    var keys := GlobalMissing(config);
    var groups := ScopeGroups(config, ScopesToCheck(config, command));
    assert (keys + groups)[..|keys|] == keys;
    GlobalKeysUnbracketed();
    GroupsBracketed(config, ScopesToCheck(config, command));
    BracketsAfterKeys(keys, groups);
    keys + groups
  }

  /** Every scope group carries the bracket after its scope name. */
  lemma GroupsBracketed(config: Config, scopes: seq<Key>)
    ensures forall g :: g in ScopeGroups(config, scopes) ==> '[' in g
  {
    forall g | g in ScopeGroups(config, scopes) ensures '[' in g {
      var s :| s in scopes && !ScopeSatisfied(config, s) && g == ScopeGroup(s, MissingKeysForCommand(config, s));
      assert g[|s|] == '[';
    }
  }

  lemma BracketsAfterKeys(keys: seq<string>, groups: seq<string>)
    requires forall k :: k in keys ==> '[' !in k
    requires forall g :: g in groups ==> '[' in g
    ensures forall i :: 0 <= i < |keys + groups| ==> ('[' in (keys + groups)[i] <==> i >= |keys|)
  {
    forall i | 0 <= i < |keys + groups| ensures '[' in (keys + groups)[i] <==> i >= |keys| {
      if i < |keys| {
        assert (keys + groups)[i] in keys;
      } else {
        assert (keys + groups)[i] in groups;
      }
    }
  }

  /** No global mandatory key contains a bracket. */
  lemma GlobalKeysUnbracketed()
    ensures forall k :: k in GlobalMandatoryKeys() ==> '[' !in k
  {
    assert '[' !in "url" && '[' !in "auth_key" && '[' !in "from" && '[' !in "to";
  }

  /**
   The entries name every omission and nothing else: each absent global
   key, and one group for each checked scope that is not satisfied.
   */
  lemma MissingEntriesListEveryOmission(config: Config, command: Option<Key>)
    ensures forall k :: k in GlobalMandatoryKeys() && k !in config ==> k in MissingEntries(config, command)
    ensures forall s :: s in ScopesToCheck(config, command) && !ScopeSatisfied(config, s) ==>
      ScopeGroup(s, MissingKeysForCommand(config, s)) in MissingEntries(config, command)
    ensures forall e :: e in MissingEntries(config, command) ==>
      (e in GlobalMandatoryKeys() && e !in config) ||
      (exists s :: s in ScopesToCheck(config, command) && !ScopeSatisfied(config, s) &&
         e == ScopeGroup(s, MissingKeysForCommand(config, s)))
  {
  }

  const MissingKeysPrefix: string := "Missing required config keys: "

  /**
   `validate_config`: passes exactly when every global mandatory key is
   present and every checked scope is satisfied; otherwise raises a
   `ConfigurationError` listing all missing entries.
   */
  function ValidateConfig(config: Config, command: Option<Key>): (r: Outcome<Error>)
    ensures r.Pass? <==>
      (forall k :: k in GlobalMandatoryKeys() ==> k in config) &&
      (forall s :: s in ScopesToCheck(config, command) ==> ScopeSatisfied(config, s))
    ensures r.Fail? ==> (r.error.ConfigurationError? && |r.error.message| >= |MissingKeysPrefix| &&
      r.error.message[..|MissingKeysPrefix|] == MissingKeysPrefix)
    ensures r.Fail? ==>
      r.error.message == MissingKeysPrefix + Strings.Join(MissingEntries(config, command), ", ")
  {
    var entries := MissingEntries(config, command);
    NoMissingEntries(config, command);
    if entries == [] then Pass
    else
      var message := MissingKeysPrefix + Strings.Join(entries, ", ");
      assert message[..|MissingKeysPrefix|] == MissingKeysPrefix;
      Fail(ConfigurationError(message))
  }

  /** There is nothing to report exactly when the global keys and every checked scope are present. */
  lemma NoMissingEntries(config: Config, command: Option<Key>)
    ensures MissingEntries(config, command) == [] <==>
      (forall k :: k in GlobalMandatoryKeys() ==> k in config) &&
      (forall s :: s in ScopesToCheck(config, command) ==> ScopeSatisfied(config, s))
  {
    var missing := GlobalMissing(config);
    assert missing == [] <==> forall k :: k in GlobalMandatoryKeys() ==> k in config by {
      if missing != [] {
        assert missing[0] in missing;
      }
    }
  }

  // ---------------------------------------------------------------------
  // configure and the stored config
  // ---------------------------------------------------------------------

  /** The stored config after a call, and what the call returned or raised. */
  datatype Step = Step(stored: Option<Config>, outcome: Result<Config, Error>)

  /**
   `configure`: resolve, store, then validate. The store happens before
   validation, so a validation failure still replaces the stored config;
   only a failure while loading the profile leaves it as it was.
   */
  function ConfigureStep(stored: Option<Config>, opts: Config, command: Option<Key>, env: Env): (r: Step)
    ensures Resolve(opts, env).Failure? ==> r.stored == stored && r.outcome == Failure(Resolve(opts, env).error)
    ensures Resolve(opts, env).Success? ==> r.stored == Some(Resolve(opts, env).value)
    ensures r.outcome.Success? <==> Resolve(opts, env).Success? && ValidateConfig(Resolve(opts, env).value, command).Pass?
    ensures Resolve(opts, env).Success? && ValidateConfig(Resolve(opts, env).value, command).Fail? ==>
      r.outcome == Failure(ValidateConfig(Resolve(opts, env).value, command).error)
    ensures r.outcome.Success? ==> r.stored == Some(r.outcome.value)
    ensures r.outcome.Success? ==>
      && (forall k :: k in GlobalMandatoryKeys() ==> k in r.outcome.value)
      && (command.Some? ==> ScopeSatisfied(r.outcome.value, command.value))
      && (forall k :: k in DefaultOpts ==> k !in r.outcome.value)
  {
    match Resolve(opts, env)
    case Failure(e) => Step(stored, Failure(e))
    case Success(config) =>
      match ValidateConfig(config, command)
      case Pass => Step(Some(config), Success(config))
      case Fail(e) => Step(Some(config), Failure(e))
  }

  /** A Confidant `Configurator` object: holds the single stored config. */
  class Resolver {
    var config: Config

    constructor Holding(config: Config)
      ensures this.config == config
    {
      this.config := config;
    }

    /** `Configurator.new(opts, command)`: `initialize` runs `configure`, so construction raises what it raises. */
    static method New(opts: Config, command: Option<Key>, env: Env) returns (r: Result<Resolver, Error>)
      ensures r.Success? <==> ConfigureStep(None, opts, command, env).outcome.Success?
      ensures r.Success? ==> r.value.config == ConfigureStep(None, opts, command, env).outcome.value
      ensures r.Failure? ==> r.error == ConfigureStep(None, opts, command, env).outcome.error
      ensures r.Success? ==>
        && (forall k :: k in GlobalMandatoryKeys() ==> k in r.value.config)
        && (command.Some? ==> ScopeSatisfied(r.value.config, command.value))
        && (forall k :: k in DefaultOpts ==> k !in r.value.config)
    {
      var step := ConfigureStep(None, opts, command, env);
      if step.outcome.Success? {
        var c := new Resolver.Holding(step.outcome.value);
        r := Success(c);
      } else {
        r := Failure(step.outcome.error);
      }
    }

    /** `configure(opts, command)` on an existing configurator. */
    method Configure(opts: Config, command: Option<Key>, env: Env) returns (r: Result<Config, Error>)
      modifies this
      ensures var step := ConfigureStep(Some(old(config)), opts, command, env);
        Some(config) == step.stored && r == step.outcome
    {
      var step := ConfigureStep(Some(config), opts, command, env);
      config := step.stored.value;
      r := step.outcome;
    }

    /** `validate_config(command)` against the stored config. */
    method Validate(command: Option<Key>) returns (r: Outcome<Error>)
      ensures r == ValidateConfig(config, command)
      ensures r.Pass? <==>
        (forall k :: k in GlobalMandatoryKeys() ==> k in config) &&
        (forall s :: s in ScopesToCheck(config, command) ==> ScopeSatisfied(config, s))
    {
      r := ValidateConfig(config, command);
    }
  }
}

=== FILE: scenarios.dfy ===
/**
 Concrete runs of the model: worked examples and the edge cases of the
 source, each stated as a lemma.
 */
module Scenarios {
  import opened Wrappers
  import opened Values
  import Strings
  import opened Configurator
  import Cli

  const NoFiles: Env := Env({}, map[])

  const FourGlobals: Config := map[
    "url" := Str("https://x"),
    "auth_key" := Str("alias/a"),
    "from" := Str("svc-a"),
    "to" := Str("confidant-prod")
  ]

  const WithoutFrom: Config := map[
    "url" := Str("https://x"),
    "auth_key" := Str("alias/a"),
    "to" := Str("confidant-prod")
  ]

  function Unless(k: Key, present: set<Key>): seq<Key>
  {
    if k in present then [] else [k]
  }

  /** The global keys missing from `present`, key by key in declaration order. */
  lemma GlobalKeysWithout(present: set<Key>)
    ensures Without(GlobalMandatoryKeys(), present) ==
      Unless("url", present) + (Unless("auth_key", present) + (Unless("from", present) + Unless("to", present)))
  {
    var xs := GlobalMandatoryKeys();
    assert xs[0] == "url" && xs[1..] == ["auth_key", "from", "to"];
    LastThreeWithout(present);
    WithoutHead(xs, present);
  }

  lemma WithoutHead(xs: seq<Key>, present: set<Key>)
    requires |xs| > 0
    ensures Without(xs, present) == Unless(xs[0], present) + Without(xs[1..], present)
  {
  }

  lemma LastThreeWithout(present: set<Key>)
    ensures Without(["auth_key", "from", "to"], present) ==
      Unless("auth_key", present) + (Unless("from", present) + Unless("to", present))
  {
    LastTwoWithout(present);
    WithoutCons("auth_key", ["from", "to"], present);
    assert ["auth_key", "from", "to"] == ["auth_key"] + ["from", "to"];
  }

  lemma LastTwoWithout(present: set<Key>)
    ensures Without(["from", "to"], present) == Unless("from", present) + Unless("to", present)
  {
    WithoutCons("to", [], present);
    assert ["to"] == ["to"] + [];
    WithoutCons("from", ["to"], present);
    assert ["from", "to"] == ["from"] + ["to"];
  }

  /** `Array#-` one element at a time. */
  lemma WithoutCons(x: Key, xs: seq<Key>, present: set<Key>)
    ensures Without([x] + xs, present) == Unless(x, present) + Without(xs, present)
  {
    assert ([x] + xs)[1..] == xs;
  }

  /** The scopes checked without a command, from which mandatory scopes are top-level keys. */
  lemma ScopesWithoutCommand(config: Config)
    ensures ScopesToCheck(config, None) ==
      (if "global" in config then ["global"] else []) +
      (if "get_service" in config then ["get_service"] else [])
  {
    var xs := MandatoryScopes();
    assert xs[1..] == ["get_service"];
    assert xs[1..][1..] == [];
  }

  lemma ResolvesToDefaultsPlus(opts: Config)
    requires opts.Keys !! DefaultOpts.Keys
    ensures Resolve(opts, NoFiles) == Success(Defaults + opts)
  {
    NoExistingFileMeansEmptyProfile(opts, NoFiles);
    ResolveWithoutProfile(opts, NoFiles);
  }

  lemma FourGlobalsValid()
    ensures ValidateConfig(Defaults + FourGlobals, None) == Pass
  {
    assert "global" !in Defaults + FourGlobals;
    assert "get_service" !in Defaults + FourGlobals;
  }

  /** With no config file, the four global options alone resolve and validate; the client defaults are backfilled. */
  lemma GlobalOptionsAloneSucceed()
    ensures ConfigureStep(None, FourGlobals, None, NoFiles).outcome == Success(Defaults + FourGlobals)
  {
    ResolvesToDefaultsPlus(FourGlobals);
    FourGlobalsValid();
  }

  lemma WithoutFromGlobalMissing()
    ensures GlobalMissing(Defaults + WithoutFrom) == ["from"]
  {
    var c := Defaults + WithoutFrom;
    GlobalKeysWithout(c.Keys);
    assert "url" in c && "auth_key" in c && "to" in c && "from" !in c;
  }

  lemma WithoutFromNoScopes()
    ensures ScopesToCheck(Defaults + WithoutFrom, None) == []
  {
    assert "global" !in Defaults + WithoutFrom;
    assert "get_service" !in Defaults + WithoutFrom;
  }

  lemma WithoutFromEntries()
    ensures MissingEntries(Defaults + WithoutFrom, None) == ["from"]
  {
    WithoutFromGlobalMissing();
    WithoutFromNoScopes();
  }

  /** Omitting `from` raises an error naming `from` and nothing else. */
  lemma MissingFromIsNamed()
    ensures ConfigureStep(None, WithoutFrom, None, NoFiles).outcome ==
      Failure(ConfigurationError(MissingKeysPrefix + "from"))
  {
    ResolvesToDefaultsPlus(WithoutFrom);
    WithoutFromEntries();
  }

  const PartialConfig: Config := map["auth_key" := Str("a"), "to" := Str("t")]

  lemma PartialEntries()
    ensures MissingEntries(PartialConfig, Some("get_service")) ==
      ["url", "from", ScopeGroup("get_service", ["service"])]
  {
    PartialGlobalMissing();
    PartialGroups();
  }

  lemma PartialGlobalMissing()
    ensures GlobalMissing(PartialConfig) == ["url", "from"]
  {
    GlobalKeysWithout(PartialConfig.Keys);
    assert "url" !in PartialConfig && "from" !in PartialConfig;
    assert "auth_key" in PartialConfig && "to" in PartialConfig;
  }

  lemma PartialGroups()
    ensures ScopeGroups(PartialConfig, ["get_service"]) == [ScopeGroup("get_service", ["service"])]
  {
    assert "get_service" !in PartialConfig;
    ScopeGroupsOfOne(PartialConfig, "get_service");
  }

  /**
   Global keys in declaration order first, then one group per failing
   scope: the message reads `url, from, get_service[service]`.
   */
  lemma MessageOrder()
    ensures ValidateConfig(PartialConfig, Some("get_service")) ==
      Fail(ConfigurationError(MissingKeysPrefix +
        Strings.Join(["url", "from", ScopeGroup("get_service", ["service"])], ", ")))
    ensures ValidateConfig(PartialConfig, Some("get_service")) ==
      Fail(ConfigurationError(MissingKeysPrefix + "url, from, get_service[service]"))
  {
    PartialEntries();
    GetServiceGroup();
    JoinOfThree("url", "from", "get_service[service]", ", ");
    MessageOrderText();
  }

  /** The three entries joined by `, ` spell out the list of the message. */
  lemma MessageOrderText()
    ensures "url" + ", " + "from" + ", " + "get_service[service]" == "url, from, get_service[service]"
  {
    TextAfterFrom();
    TextAfterUrl();
  }

  /** The tail of the list from `from` on. */
  lemma TextAfterFrom()
    ensures "from" + ", " + "get_service[service]" == "from, get_service[service]"
  {
  }

  /** The whole list, from `url` on. */
  lemma TextAfterUrl()
    ensures "url" + ", " + "from, get_service[service]" == "url, from, get_service[service]"
  {
  }

  /** A three-entry join, spelled out. */
  lemma JoinOfThree(a: string, b: string, c: string, sep: string)
    ensures Strings.Join([a, b, c], sep) == a + sep + b + sep + c
  {
    assert [a, b, c][1..] == [b, c];
    assert [b, c][1..] == [c];
    assert Strings.Join([b, c], sep) == b + sep + c;
    assert Strings.Join([a, b, c], sep) == a + sep + (b + sep + c);
    assert a + sep + (b + sep + c) == a + sep + b + sep + c;
  }

  /** The group for a `get_service` call without `service` reads `get_service[service]`. */
  lemma GetServiceGroup()
    ensures ScopeGroup("get_service", ["service"]) == "get_service[service]"
  {
    assert Strings.Join(["service"], ",") == "service";
  }

  const NestedGlobal: Config := FourGlobals["global" := Dict(map["url" := Str("u")])]

  lemma NestedGlobalScopes()
    ensures GlobalMissing(NestedGlobal) == []
    ensures ScopesToCheck(NestedGlobal, None) == ["global"]
  {
    GlobalKeysWithout(NestedGlobal.Keys);
    assert "url" in NestedGlobal && "auth_key" in NestedGlobal;
    assert "from" in NestedGlobal && "to" in NestedGlobal;
    ScopesWithoutCommand(NestedGlobal);
    assert "global" in NestedGlobal && "get_service" !in NestedGlobal;
  }

  lemma NestedGlobalGroups()
    ensures ScopeGroups(NestedGlobal, ["global"]) == [ScopeGroup("global", ["auth_key", "from", "to"])]
  {
    NestedGlobalMissing();
    ScopeGroupsOfOne(NestedGlobal, "global");
  }

  lemma NestedGlobalMissing()
    ensures MissingKeysForCommand(NestedGlobal, "global") == ["auth_key", "from", "to"]
  {
    assert NestedGlobal["global"] == Dict(map["url" := Str("u")]);
    BlockMissing(NestedGlobal, "global", map["url" := Str("u")]);
    UrlOnlyMissing();
  }

  lemma UrlOnlyMissing()
    ensures Without(GlobalMandatoryKeys(), {"url"}) == ["auth_key", "from", "to"]
  {
    GlobalKeysWithout({"url"});
    assert Unless("url", {"url"}) == [];
  }

  /** A scope whose block is a Hash reports its mandatory keys that the Hash lacks. */
  lemma BlockMissing(config: Config, scope: Key, block: Config)
    requires scope in config && config[scope] == Dict(block)
    ensures MissingKeysForCommand(config, scope) == Without(MandatoryKeysFor(scope), block.Keys)
  {
  }


  lemma NestedGlobalEntries()
    ensures MissingEntries(NestedGlobal, None) == [ScopeGroup("global", ["auth_key", "from", "to"])]
  {
    NestedGlobalScopes();
    NestedGlobalGroups();
  }

  /** A `global` block in the config is itself checked as a scope: `global[auth_key,from,to]`. */
  lemma GlobalBlockIsAScope()
    ensures ValidateConfig(NestedGlobal, None) ==
      Fail(ConfigurationError(MissingKeysPrefix + ScopeGroup("global", ["auth_key", "from", "to"])))
  {
    NestedGlobalEntries();
  }

  /**
   A command without mandatory keys never fails its scope: under it,
   validation passes exactly when the global keys are present.
   */
  lemma CommandWithoutMandatoryKeysPasses(config: Config)
    ensures ScopeSatisfied(config, "show_config")
    ensures ValidateConfig(config, Some("show_config")).Pass? <==>
      forall k :: k in GlobalMandatoryKeys() ==> k in config
  {
    assert "show_config" !in MandatoryScopes();
    assert MissingKeysForCommand(config, "show_config") == [];
  }

  const ConfigPath: string := "/etc/confidant/config"

  const ProdFile: Env := Env(
    {ConfigPath},
    map[ConfigPath := Dict(map[
      "prod" := Dict(map["auth_context" := Dict(map["auth_key" := Str("X")]), "url" := Str("Y")]),
      "dev" := Dict(map["auth_context" := Bool(false), "url" := Str("Z")])
    ])]
  )

  /** The `auth_context` of a profile is flattened into it and removed. */
  lemma AuthContextFlattened()
    ensures ProfileFromFile(ProdFile, ConfigPath, Str("prod")) ==
      Success(map["auth_key" := Str("X"), "url" := Str("Y")])
  {
    var profile := map["auth_context" := Dict(map["auth_key" := Str("X")]), "url" := Str("Y")];
    var flat := FlattenAuthContext(profile, map["auth_key" := Str("X")]);
    assert flat.Keys == {"auth_key", "url"};
    assert flat == map["auth_key" := Str("X"), "url" := Str("Y")];
  }

  /** A falsy `auth_context` is left where it is. */
  lemma FalsyAuthContextKept()
    ensures ProfileFromFile(ProdFile, ConfigPath, Str("dev")) ==
      Success(map["auth_context" := Bool(false), "url" := Str("Z")])
  {
  }

  /** A profile absent from an existing file raises, naming profile and file. */
  lemma MissingProfileRaises()
    ensures ProfileLayer(map[ProfileKey := Str("staging")], ProdFile) ==
      Failure(ConfigurationError(ProfileNotFoundMessage("staging", ConfigPath)))
  {
    var opts := map[ProfileKey := Str("staging")];
    var paths := DefaultOpts[ConfigFilesKey].items;
    assert SelfConfig(opts)[ConfigFilesKey] == List(paths);
    assert SelfConfig(opts)[ProfileKey] == Str("staging");
    assert SkippedAt(ProdFile, paths, 0);
    assert FirstExistingAt(ProdFile, paths, 1);
  }

  /** Splitting does not trim: the pieces keep their spaces. */
  lemma SplitKeepsSpaces()
    ensures Strings.Split("a, b", ',') == ["a", " b"]
  {
    Strings.SplitOfJoin(["a", " b"], ',');
    assert Strings.Join(["a", " b"], [',']) == "a, b";
  }

  /** Trailing empty pieces are dropped, and the empty string splits into nothing. */
  lemma SplitDropsTrailingEmpty()
    ensures Strings.Split("a,,", ',') == ["a"]
    ensures Strings.Split("", ',') == []
  {
    assert Strings.Fields(",", ',') == ["", ""];
    assert "a,,"[1..] == ",,";
    assert Strings.Fields(",,", ',') == ["", "", ""];
    Strings.FieldsAtOther("a,,", ',');
    assert ['a'] + "" == "a";
    assert Strings.Fields("a,,", ',') == ["a", "", ""];
    assert ["a", "", ""][..2] == ["a", ""];
    assert ["a", ""][..1] == ["a"];
  }

  /** GLI's options for `--config-files "a, b" -u https://x`, with its Symbol twins, sentinels and unset flags. */
  const GliOptions: Cli.RawOptions := [
    (Cli.StrKey("config-files"), Str("a, b")),
    (Cli.SymKey("config-files"), Str("a, b")),
    (Cli.StrKey("u"), Str("https://x")),
    (Cli.StrKey("url"), Str("https://x")),
    (Cli.StrKey("help"), Bool(false)),
    (Cli.StrKey("auth-key"), Nil)
  ]

  /** `Canonicalize` over one more entry of GLI's hash. */
  lemma CanonicalizeStep(raw: Cli.RawOptions, i: nat)
    requires 0 < i <= |raw|
    ensures Cli.Canonicalize(raw[..i]) ==
      var m := Cli.Canonicalize(raw[..i - 1]);
      var e := raw[i - 1];
      if e.0.StrKey? then m[Cli.CanonicalName(e.0.name) := e.1] else m
  {
    assert raw[..i][..i - 1] == raw[..i - 1];
  }

  lemma GliNames()
    ensures Cli.CanonicalName("config-files") == "config_files"
    ensures Cli.CanonicalName("auth-key") == "auth_key"
    ensures Cli.CanonicalName("u") == "u" && Cli.CanonicalName("url") == "url" && Cli.CanonicalName("help") == "help"
  {
    assert '-' !in "u" && '-' !in "url" && '-' !in "help";
  }

  lemma GliFirstTwo()
    ensures Cli.Canonicalize(GliOptions[..2]) == map["config_files" := Str("a, b")]
  {
    GliNames();
    assert GliOptions[..0] == [];
    CanonicalizeStep(GliOptions, 1);
    CanonicalizeStep(GliOptions, 2);
  }

  lemma GliFirstFour()
    ensures Cli.Canonicalize(GliOptions[..4]) ==
      map["config_files" := Str("a, b"), "u" := Str("https://x"), "url" := Str("https://x")]
  {
    GliNames();
    GliFirstTwo();
    CanonicalizeStep(GliOptions, 3);
    CanonicalizeStep(GliOptions, 4);
  }

  lemma GliOptionsCanonical()
    ensures Cli.Canonicalize(GliOptions) == GliCanonical
  {
    GliNames();
    GliFirstFour();
    CanonicalizeStep(GliOptions, 5);
    CanonicalizeStep(GliOptions, 6);
    assert GliOptions[..6] == GliOptions;
  }

  const GliCanonical: Config := map[
    "config_files" := Str("a, b"), "u" := Str("https://x"), "url" := Str("https://x"),
    "help" := Bool(false), "auth_key" := Nil]

  const GliSplitOpts: Config := map[
    "config_files" := List([Str("a"), Str(" b")]), "u" := Str("https://x"), "url" := Str("https://x"),
    "help" := Bool(false), "auth_key" := Nil]

  const GliCleaned: Config := map[
    "config_files" := List([Str("a"), Str(" b")]),
    "url" := Str("https://x")
  ]

  lemma GliSplit()
    ensures Cli.SplitConfigFiles(GliCanonical) == Success(GliSplitOpts)
  {
    assert GliCanonical["config_files"] == Str("a, b");
    GliSplitValue();
    GliSplitUpdate();
  }

  lemma GliSplitUpdate()
    ensures GliCanonical["config_files" := GliFiles] == GliSplitOpts
  {
  }

  lemma GliSplitValue()
    ensures List(StrList(Strings.Split("a, b", ','))) == GliFiles
  {
    SplitKeepsSpaces();
    assert StrList(["a", " b"]) == [Str("a"), Str(" b")];
  }

  /** Cleaning a map built one entry at a time keeps or drops each entry on its own. */
  lemma DropUpdate(m: Config, k: Key, v: Value)
    requires k !in m
    ensures Cli.DropPlaceholders(m[k := v]) ==
      if Truthy(v) && |k| != 1 then Cli.DropPlaceholders(m)[k := v] else Cli.DropPlaceholders(m)
  {
  }

  const GliFiles: Value := List([Str("a"), Str(" b")])

  lemma GliSplitOptsBuilt()
    ensures GliSplitOpts ==
      map["config_files" := GliFiles]["u" := Str("https://x")]["url" := Str("https://x")]
        ["help" := Bool(false)]["auth_key" := Nil]
  {
  }

  lemma GliDropFirstTwo()
    ensures Cli.DropPlaceholders(map["config_files" := GliFiles]["u" := Str("https://x")]) ==
      map["config_files" := GliFiles]
  {
    assert Cli.DropPlaceholders(map[]) == map[];
    DropUpdate(map[], "config_files", GliFiles);
    DropUpdate(map["config_files" := GliFiles], "u", Str("https://x"));
  }

  lemma GliDropFirstThree()
    ensures Cli.DropPlaceholders(map["config_files" := GliFiles]["u" := Str("https://x")]["url" := Str("https://x")]) ==
      GliCleaned
  {
    GliDropFirstTwo();
    DropUpdate(map["config_files" := GliFiles]["u" := Str("https://x")], "url", Str("https://x"));
  }

  lemma GliDrop()
    ensures Cli.DropPlaceholders(GliSplitOpts) == GliCleaned
  {
    var m3 := map["config_files" := GliFiles]["u" := Str("https://x")]["url" := Str("https://x")];
    GliSplitOptsBuilt();
    GliDropFirstThree();
    DropUnsetFlags(m3);
  }

  /** GLI's unset `help` switch and `auth-key` flag never survive cleaning. */
  lemma DropUnsetFlags(m: Config)
    requires "help" !in m && "auth_key" !in m
    ensures Cli.DropPlaceholders(m["help" := Bool(false)]["auth_key" := Nil]) == Cli.DropPlaceholders(m)
  {
    DropUpdate(m, "help", Bool(false));
    DropUpdate(m["help" := Bool(false)], "auth_key", Nil);
  }

  /** The cleaned options: Symbol twin ignored, `-u` alias, false `help` and nil `auth-key` dropped, `config_files` split. */
  lemma CleanGliOptions()
    ensures Cli.CleanOpts(GliOptions) == Success(GliCleaned)
  {
    GliOptionsCanonical();
    GliSplit();
    GliDrop();
  }
}

=== FILE: strings.dfy ===
/**
 The three string operations the option cleaner and the validator use:
 one-character `String#tr`, `String#split` on a one-character pattern,
 and `Array#join`.
 */
module Strings {

  /** `s.tr(from, to)` for single characters: every `from` becomes `to`. */
  function Tr(s: string, from: char, to: char): (r: string)
    ensures |r| == |s|
    ensures from != to ==> from !in r
    ensures from !in s ==> r == s
    ensures forall i :: 0 <= i < |s| && s[i] != from ==> r[i] == s[i]
    ensures forall i :: 0 <= i < |s| && s[i] == from ==> r[i] == to
  {
    seq(|s|, i requires 0 <= i < |s| => if s[i] == from then to else s[i])
  }

  /** Translating back undoes `Tr` when the target character did not occur. */
  lemma TrRoundTrip(s: string, from: char, to: char)
    requires to !in s
    ensures Tr(Tr(s, from, to), to, from) == s
  {
  }

  /** `parts.join(sep)`. */
  function Join(parts: seq<string>, sep: string): (r: string)
    ensures |parts| == 0 ==> r == ""
    ensures |parts| > 0 ==> |parts[0]| <= |r| && r[..|parts[0]|] == parts[0]
  {
    if |parts| == 0 then ""
    else if |parts| == 1 then parts[0]
    else parts[0] + sep + Join(parts[1..], sep)
  }

  /**
   Every piece of `s` between separators, empty pieces included: a string
   with n separators has n + 1 fields.
   */
  function Fields(s: string, sep: char): (r: seq<string>)
    ensures |r| >= 1
    ensures forall i :: 0 <= i < |r| ==> sep !in r[i]
    ensures sep !in s ==> r == [s]
    ensures sep in s ==> |r| >= 2
    ensures r[|r| - 1] == "" <==> s == "" || s[|s| - 1] == sep
    decreases |s|
  {
    if |s| == 0 then [""]
    else
      var rest := Fields(s[1..], sep);
      assert |s| >= 2 ==> s[|s| - 1] == s[1..][|s| - 2];
      if s[0] == sep then [""] + rest
      else
        assert sep in s[1..] ==> sep in s;
        assert [s[0]] + s[1..] == s;
        [[s[0]] + rest[0]] + rest[1..]
  }

  /** Drops the empty strings at the end of `xs`. */
  function DropTrailingEmpty(xs: seq<string>): (r: seq<string>)
    ensures |r| <= |xs| && r == xs[..|r|]
    ensures |r| > 0 ==> r[|r| - 1] != ""
    ensures forall i :: |r| <= i < |xs| ==> xs[i] == ""
  {
    if |xs| == 0 then []
    else if xs[|xs| - 1] == "" then DropTrailingEmpty(xs[..|xs| - 1])
    else xs
  }

  /**
   `s.split(sep)` for a one-character pattern and no limit: the fields of
   `s`, with trailing empty fields removed (so `"".split(",")` is `[]`).
   No field is trimmed.
   */
  function Split(s: string, sep: char): (r: seq<string>)
    ensures forall i :: 0 <= i < |r| ==> sep !in r[i]
    ensures |r| > 0 ==> r[|r| - 1] != ""
    ensures s != "" && s[|s| - 1] != sep ==> r == Fields(s, sep)
    ensures |r| <= |Fields(s, sep)| && r == Fields(s, sep)[..|r|]
    ensures forall i :: |r| <= i < |Fields(s, sep)| ==> Fields(s, sep)[i] == ""
  {
    DropTrailingEmpty(Fields(s, sep))
  }

  lemma JoinCons(parts: seq<string>, sep: string)
    requires |parts| >= 2
    ensures Join(parts, sep) == parts[0] + sep + Join(parts[1..], sep)
  {
  }

  /** Joining the fields of `s` with the separator gives back `s`. */
  lemma {:induction false} JoinFields(s: string, sep: char)
    ensures Join(Fields(s, sep), [sep]) == s
    decreases |s|
  {
    if |s| > 0 {
      JoinFields(s[1..], sep);
      if s[0] == sep {
        JoinFieldsAtSeparator(s, sep);
      } else {
        JoinFieldsAtOther(s, sep);
      }
    }
  }

  lemma JoinFieldsAtSeparator(s: string, sep: char)
    requires |s| > 0 && s[0] == sep
    requires Join(Fields(s[1..], sep), [sep]) == s[1..]
    ensures Join(Fields(s, sep), [sep]) == s
  {
    FieldsAtSeparator(s, sep);
    JoinEmptyHead(Fields(s[1..], sep), sep);
    assert Join(Fields(s, sep), [sep]) == [sep] + s[1..];
    assert s == [sep] + s[1..];
  }

  lemma FieldsAtSeparator(s: string, sep: char)
    requires |s| > 0 && s[0] == sep
    ensures Fields(s, sep) == [""] + Fields(s[1..], sep)
  {
  }

  lemma JoinEmptyHead(rest: seq<string>, sep: char)
    requires |rest| >= 1
    ensures Join([""] + rest, [sep]) == [sep] + Join(rest, [sep])
  {
    var r := [""] + rest;
    assert r[1..] == rest;
    JoinCons(r, [sep]);
    assert r[0] + [sep] == [sep];
  }

  lemma FieldsAtOther(s: string, sep: char)
    requires |s| > 0 && s[0] != sep
    ensures Fields(s, sep) == [[s[0]] + Fields(s[1..], sep)[0]] + Fields(s[1..], sep)[1..]
  {
  }

  lemma Regroup(c: char, x: string, y: string, z: string)
    ensures [c] + x + y + z == [c] + (x + y + z)
  {
  }

  lemma JoinFieldsAtOther(s: string, sep: char)
    requires |s| > 0 && s[0] != sep
    requires Join(Fields(s[1..], sep), [sep]) == s[1..]
    ensures Join(Fields(s, sep), [sep]) == s
  {
    FieldsAtOther(s, sep);
    JoinExtendHead(s[0], Fields(s[1..], sep), [sep]);
    assert s == [s[0]] + s[1..];
  }

  /** Prefixing the first part with `c` prefixes the join with `c`. */
  lemma JoinExtendHead(c: char, parts: seq<string>, sep: string)
    requires |parts| >= 1
    ensures Join([[c] + parts[0]] + parts[1..], sep) == [c] + Join(parts, sep)
  {
    var r := [[c] + parts[0]] + parts[1..];
    if |parts| >= 2 {
      JoinCons(r, sep);
      JoinCons(parts, sep);
      assert r[1..] == parts[1..];
      Regroup(c, parts[0], sep, Join(parts[1..], sep));
    }
  }

  /**
   Round trip one way: a string that does not end with the separator is
   rebuilt by joining what `Split` returns.
   */
  lemma SplitJoin(s: string, sep: char)
    requires s == "" || s[|s| - 1] != sep
    ensures Join(Split(s, sep), [sep]) == s
  {
    if s != "" {
      JoinFields(s, sep);
    }
  }

  /** The fields of `a`, a separator, then `b`: `a` then the fields of `b`. */
  lemma {:induction false} FieldsAfterSeparator(a: string, sep: char, b: string)
    requires sep !in a
    ensures Fields(a + [sep] + b, sep) == [a] + Fields(b, sep)
    decreases |a|
  {
    var s := a + [sep] + b;
    if |a| == 0 {
      assert s[1..] == b;
    } else {
      assert s[0] == a[0] && s[1..] == a[1..] + [sep] + b;
      assert sep !in a[1..] by { assert forall c :: c in a[1..] ==> c in a; }
      FieldsAfterSeparator(a[1..], sep, b);
      FieldsStep(s, sep, a[1..], Fields(b, sep));
      assert [a[0]] + a[1..] == a;
    }
  }

  /** One step of `Fields` past a non-separator character, with the rest already known. */
  lemma FieldsStep(s: string, sep: char, head: string, tail: seq<string>)
    requires |s| > 0 && s[0] != sep
    requires Fields(s[1..], sep) == [head] + tail
    ensures Fields(s, sep) == [[s[0]] + head] + tail
  {
    FieldsAtOther(s, sep);
    assert ([head] + tail)[1..] == tail;
  }

  /** Joined pieces that contain no separator split back into their fields. */
  lemma {:induction false} FieldsOfJoin(parts: seq<string>, sep: char)
    requires |parts| >= 1
    requires forall i :: 0 <= i < |parts| ==> sep !in parts[i]
    ensures Fields(Join(parts, [sep]), sep) == parts
    decreases |parts|
  {
    if |parts| >= 2 {
      JoinCons(parts, [sep]);
      FieldsOfJoin(parts[1..], sep);
      FieldsAfterSeparator(parts[0], sep, Join(parts[1..], [sep]));
      assert parts == [parts[0]] + parts[1..];
    }
  }

  /**
   Round trip the other way: pieces without separators whose last piece
   is not empty are recovered by splitting their join.
   */
  lemma SplitOfJoin(parts: seq<string>, sep: char)
    requires forall i :: 0 <= i < |parts| ==> sep !in parts[i]
    requires |parts| == 0 || parts[|parts| - 1] != ""
    ensures Split(Join(parts, [sep]), sep) == parts
  {
    if |parts| > 0 {
      FieldsOfJoin(parts, sep);
    }
  }
}

=== FILE: values.dfy ===
/**
 Configuration values as the option parser and the YAML loader produce
 them, keys as Symbol names, and the errors the configuration code raises.
 */
module Values {

  /** The name of a Ruby Symbol used as a configuration key. */
  type Key = string

  /** A parsed value tree: the scalars YAML and GLI produce, arrays and hashes. */
  datatype Value =
    | Nil
    | Bool(b: bool)
    | Int(i: int)
    | Str(s: string)
    | List(items: seq<Value>)
    | Dict(entries: map<Key, Value>)

  /** A configuration hash with Symbol keys. */
  type Config = map<Key, Value>

  /** Ruby truthiness: only nil and false are falsy. */
  predicate Truthy(v: Value) {
    !v.Nil? && v != Bool(false)
  }

  /** An array of strings, as `String#split` returns it. */
  function StrList(xs: seq<string>): (r: seq<Value>)
    ensures |r| == |xs|
    ensures forall i :: 0 <= i < |xs| ==> r[i].Str? && r[i].s == xs[i]
  {
    seq(|xs|, i requires 0 <= i < |xs| => Str(xs[i]))
  }

  /** What resolution can raise. */
  datatype Error =
      /** `Confidant::ConfigurationError`, with its message. */
    | ConfigurationError(message: string)
      /** The loader failed on an existing path (unreadable or unparseable file). */
    | LoadFailure(path: string)
      /** A Ruby `NoMethodError` or `TypeError` raised on a value of the wrong shape. */
    | TypeFault(message: string)
}

=== FILE: wrappers.dfy ===
/** Failure-compatible return types used in place of Ruby's exceptions. */
module Wrappers {

  /** A value that may be absent (Ruby's nil argument). */
  datatype Option<+T> = None | Some(value: T)

  /** Either a computed value or the exception the Ruby code raises. */
  datatype Result<+T, +E> = Success(value: T) | Failure(error: E) {

    predicate IsFailure() {
      Failure?
    }

    function PropagateFailure<U>(): Result<U, E>
      requires Failure?
    {
      Failure(error)
    }

    function Extract(): T
      requires Success?
    {
      value
    }
  }

  /** The outcome of a check that either passes or raises. */
  datatype Outcome<+E> = Pass | Fail(error: E)
}
